=== FILE: README.md ===
# Guestbook and file-sharing handlers, modelled in Dafny

The application is a small web app on a managed platform. Visitors post
greetings to named guestbooks. Signed-in users upload files, browse them by
media category, and view, download or delete them. Almost everything is
delegated to platform services: identity, the Datastore, the Blobstore and
templates. This project models the logic the application itself writes. It
runs over an in-memory record store, and it proves what that logic
guarantees.

- `records.dfy` (`Records`): the values. These are users, blob references
  (`BlobInfo`: blob key plus filename), `File` records (`FileRecord`: blob
  plus optional owner), `Greeting` records (parent guestbook key, optional
  author, content, date) and handler responses. A response is a 404, a blob
  sent inline or as an attachment, a redirect, or an uncaught error. The
  module also holds the default guestbook name `default_name` and
  `GuestbookKey`, which builds the key `('Guestbook', name)`.
- `media.dfy` (`Media`): the case-sensitive suffix tests of the three media
  pages (`IsImageName`, `IsAudioName`, `IsVideoName`, the last one with its
  single upper-case suffix `.MPG`) and the filter the pages apply
  (`CategoryFilter`). It also holds lemmas about membership, order,
  counts, distinct keys, case sensitivity and disjointness of the
  categories.
- `store.dfy` (`Store`): the `Datastore` class. It holds a
  `map<Key, FileRecord>` of files, the sequence of greetings in put order,
  and a counter. The counter makes every `put()` of a File get a key that no
  record has (`DecimalDistinct` proves the key texts never collide). The
  class also provides `get` and `delete` by key.
- `handlers.dfy` (`Handlers`): the request handlers as functions and
  methods over a `Datastore`. The current user is an `Option<User>`
  argument. Request parameters are `Option<string>` arguments, `None` when
  absent.

## Model

| member | source | states |
|---|---|---|
| `Handlers.SignGuestbook` | GAE_Project/src/main.py:85-96 | The files are unchanged. When the guestbook name is one the key constructor accepts, there is no error. When the handler does not fail, exactly one Greeting is appended. Its parent key is `('Guestbook', name)`, where `name` falls back to `default_name` when the parameter is absent. The content is stored verbatim, or as `""` when absent. The author is set exactly when a user is signed in. The date is the given time. The response redirects to `/` with the same `guestbook_name`. When it fails, no greeting is stored. |
| `Records.DefaultNameAccepted` | GAE_Project/src/main.py:85-87 | The default guestbook name is accepted as a key name, so a request without `guestbook_name` never fails on the key. |
| `Handlers.UploadCallback` | GAE_Project/src/main.py:108-114 | With at least one upload, exactly one File is added under a key no record had. Its blob is the first upload and its user is the current user, possibly none. The response redirects to `/list`. With no upload, the result is an uncaught error and the store is unchanged. |
| `Handlers.CategoryPage` | GAE_Project/src/main.py:133-137 | The loop over the owner query equals `CategoryFilter` of the query. An entry is kept exactly when it is a File of the store owned by the user and its filename is in the category. The result is a subsequence of the query, with distinct keys. |
| `Handlers.ImagePage` | GAE_Project/src/main.py:131-137 | A file is on the images page exactly when it is owned by the current user and its filename ends with `.jpg`, `.jpeg`, `.png` or `.gif`. The page keeps query order. |
| `Handlers.AudioPage` | GAE_Project/src/main.py:149-155 | A file is on the audio page exactly when it is owned by the current user and its filename ends with `.wav`, `.aif`, `.au` or `.mp3`. The page keeps query order. |
| `Handlers.VideoPage` | GAE_Project/src/main.py:166-172 | A file is on the video page exactly when it is owned by the current user and its filename ends with `.asf`, `.mpeg`, `.wmv` or `.MPG`. The page keeps query order. |
| `Handlers.OwnerQueryExists` | GAE_Project/src/main.py:134 | For every store and every user, some listing of the user's files meets `IsOwnerQuery`, so the page contracts are never vacuous. |
| `Handlers.OwnerQueriesAgreeUpToOrder` | GAE_Project/src/main.py:134 | Any two owner queries of the same store and user have equal multisets. They can differ only in order, and the order is the Datastore's. |
| `Records.GuestbookKeysDistinct` | GAE_Project/src/main.py:27-33 | Two guestbook names give the same group key exactly when they are the same name, so different guestbooks never share greetings. |
| `Media.ImageNameBySuffixSet` | GAE_Project/src/main.py:136 | `IsImageName` holds of a name exactly when it ends, case-sensitively, in one of `.jpg`, `.jpeg`, `.png`, `.gif`. |
| `Media.AudioNameBySuffixSet` | GAE_Project/src/main.py:154 | `IsAudioName` holds of a name exactly when it ends, case-sensitively, in one of `.wav`, `.aif`, `.au`, `.mp3`. |
| `Media.VideoNameBySuffixSet` | GAE_Project/src/main.py:171 | `IsVideoName` holds of a name exactly when it ends, case-sensitively, in one of `.asf`, `.mpeg`, `.wmv`, `.MPG`. |
| `Media.CategoryFilter` | GAE_Project/src/main.py:133-137 | The list the category loop builds is no longer than the query, and every entry on it has a filename in the category. |
| `Handlers.ServeBlob` | GAE_Project/src/main.py:184-209 | The gate shared by view and download. A blob is sent exactly when a user is signed in, the key is present and non-empty, and a record is stored under it. The blob is that record's, with the requested attachment flag. Otherwise the response is 404. |
| `Handlers.View` | GAE_Project/src/main.py:184-195 | The blob is sent exactly when a user is signed in, the `key` parameter is present and non-empty, and a record is stored under it. Then the blob is that record's blob, sent inline. In every other case the response is 404. |
| `Handlers.NonOwnerIsServed` | GAE_Project/src/main.py:184-209 | A signed-in user who does not own a stored file is still sent its blob, inline by view and as an attachment by download. |
| `Handlers.Download` | GAE_Project/src/main.py:198-209 | Same gate as view. The blob is sent with `save_as` set. |
| `Handlers.DeleteFile` | GAE_Project/src/main.py:212-224 | A record found under a non-empty key is removed whether or not a user is signed in, and no other record changes. Without a key the store is unchanged and the response is 404. When a record was found, the response redirects to `/list` if a user is signed in and is 404 otherwise. When the key finds nothing, the store is unchanged and the response is 404 or an uncaught error. |
| `Handlers.DeleteTwice` | GAE_Project/src/main.py:212-224 | A signed-in delete of a stored key redirects and removes exactly that key. Repeating it does not redirect and changes nothing. |
| `Media.CategoryFilterMembership` | GAE_Project/src/main.py:134-137 | An entry is on a category page exactly when it is in the query and its filename has one of the category's suffixes. |
| `Media.CategoryFilterIsSubsequence` | GAE_Project/src/main.py:133-137 | The filtered list is a subsequence of the query, in the same order. |
| `Media.CategoryFilterCounts` | GAE_Project/src/main.py:133-137 | Filtering never adds an entry and never duplicates one. The multiset of the page is contained in that of the query. |
| `Media.CategoryFilterKeepsKeysDistinct` | GAE_Project/src/main.py:133-137 | A query without repeated keys gives a page without repeated keys. |
| `Media.UpperCaseJpgIsNotImage` | GAE_Project/src/main.py:136 | Any name ending in `.JPG` is not an image, because the suffix test is case-sensitive. |
| `Media.LowerCaseMpgIsNotVideo` | GAE_Project/src/main.py:171 | Any name ending in `.mpg` is not a video. |
| `Media.UpperCaseMpgIsVideoOnly` | GAE_Project/src/main.py:171 | Any name ending in `.MPG` is a video and is neither an image nor audio. |
| `Media.Mp3IsAudioOnly` | GAE_Project/src/main.py:154 | Any name ending in `.mp3` is audio and is neither an image nor a video. |
| `Media.CategoriesDisjoint` | GAE_Project/src/main.py:136-171 | No filename has suffixes of two categories, so a file appears on at most one media page. |
| `Store.Datastore.PutFile` | GAE_Project/src/main.py:113 | A File gets a key that no stored record has, and only that entry is added. |
| `Store.Datastore.PutGreeting` | GAE_Project/src/main.py:93 | The Greeting is appended after the earlier ones, and the files are unchanged. |
| `Store.Datastore.Delete` | GAE_Project/src/main.py:218 | Only the entry under the key is removed. |
| `Store.DecimalDistinct` | GAE_Project/src/main.py:113 | Different ids give different key texts, which makes the keys that `put()` allocates unique. |

## Left out

- Template rendering (Jinja environment, `index.html`, `list.html` and the media templates) and the inline HTML form of the upload page. These only produce output text through a library. A media page's result is the list it would render.
- MainPage: the newest-first, at-most-10 ancestor query over a guestbook's greetings, and the login/logout URL choice. Both are Datastore and users-service behaviour. Greetings are kept in put order so that a model of that query could be added.
- FileUpload: the upload-URL issuance of the Blobstore. ListHandler renders the owner query as it is, and that query is `IsOwnerQuery`.
- The users service: the current user is an input, `None` when no one is signed in.
- Blob byte streaming: a response says only which blob is sent and whether it is an attachment.
- `Handlers.IsOwnerQuery`: the order of the owner query is the Datastore's, so the query is an input. It is constrained to hold exactly the user's files, once each. With no user signed in, the model matches the files whose owner is unset (equality with `None`). How the Datastore's equality filter treats `None` is not stated by the source.
- `Handlers.DeleteFile`: when the lookup finds nothing, the handler passes `None` to `db.delete` (main.py:218) before its 404 at main.py:221. What the library does with `None` is not fixed by the source. The model leaves both outcomes open: the store stays unchanged, and the response is either that 404 or an uncaught error.
- `Handlers.SignGuestbook`: a `guestbook_name` that is present but empty, or longer than 500 bytes in UTF-8, is passed to the key constructor at main.py:33 and main.py:87. Whether the library rejects it is not fixed by the source. The model leaves both outcomes open: either the greeting is stored as usual, or the handler fails and nothing is stored.
- Ownership: view, download and delete check only that some user is signed in (main.py:191, 205, 220), not who owns the record. Any signed-in user can fetch or delete any stored file. The model keeps this, and `NonOwnerIsServed` states it for view and download.
- A `key` text that is malformed, or names a record that is not a File, makes the Datastore library raise an error. The model treats any text not stored as a File key as "not found".
- Key encoding: keys are modelled as the text the `key` parameter carries. A File's key text is the decimal numeral of an allocation counter, standing in for the Datastore's id allocation.
- `filelist_key` and `DEFAULT_FILELIST_NAME` are not used by any handler.
- URL quoting and encoding of redirect parameters, and the WSGI routing table. A redirect is a path plus its parameter pairs.
- The write-rate limit per guestbook group, concurrency and eventual consistency.

=== FILE: handlers.dfy ===
/** The application's request handlers over the record store: signing the
    guestbook, the upload callback, the three media pages, and the view,
    download and delete gate. The current user is an input (`None` when no
    one is signed in), as are the request parameters (`None` when absent). */
module Handlers {
  import opened Records
  import opened Media
  import opened Store

  /** `guestbook_name`, or the default name when the request has none. */
  function GuestbookName(param: Option<string>): (name: string)
  {
    match param
    case Some(name) => name
    case None => DefaultGuestbookName
  }

  /** A `key` parameter the handlers look up: present and not empty. */
  predicate KeyGiven(param: Option<string>)
  {
    param.Some? && param.value != ""
  }

  /** Guestbook.post: one new Greeting in the named guestbook's group, with
      the content as given, authored by the current user if there is one;
      then a redirect to the main page of that guestbook. A name the key
      constructor does not accept (empty, or over 500 bytes) may make the
      library raise before anything is put; the model leaves that open. */
  method SignGuestbook(store: Datastore, nameParam: Option<string>, contentParam: Option<string>,
                       user: Option<User>, now: int) returns (r: Response)
    requires store.Valid()
    modifies store
    ensures store.Valid()
    ensures store.files == old(store.files)
    ensures KeyNameAccepted(if nameParam.Some? then nameParam.value else "default_name") ==> r != ServerError
    ensures r == ServerError ==> store.greetings == old(store.greetings)
    ensures r != ServerError ==>
              && |store.greetings| == |old(store.greetings)| + 1
              && store.greetings[..|old(store.greetings)|] == old(store.greetings)
              && (var g := store.greetings[|old(store.greetings)|];
                  && g.parent == NamedKey("Guestbook", if nameParam.Some? then nameParam.value else "default_name")
                  && g.author == user
                  && g.content == (if contentParam.Some? then contentParam.value else "")
                  && g.date == now)
              && r == Redirect("/", [("guestbook_name", if nameParam.Some? then nameParam.value else "default_name")])
  {
    var name := GuestbookName(nameParam);
    if !KeyNameAccepted(name) {
      // ndb.Key('Guestbook', name) with such a name: accepted or raised.
      var raises: bool :| true;
      if raises {
        return ServerError;
      }
    }
    var author: Option<User> := None;
    if user.Some? {
      author := user;
    }
    var content := if contentParam.Some? then contentParam.value else "";
    var greeting := Greeting(GuestbookKey(name), author, content, now);
    store.PutGreeting(greeting);
    r := Redirect("/", [("guestbook_name", name)]);
  }

  /** UploadHandler.post: a new File for the first upload, owned by the
      current user (possibly none), then a redirect to the list; with no
      upload, indexing the first one fails and nothing is stored.
      `created` is the key `put()` assigns, which the handler discards. */
  method UploadCallback(store: Datastore, uploads: seq<BlobInfo>, user: Option<User>)
    returns (r: Response, created: Option<Key>)
    requires store.Valid()
    modifies store
    ensures store.Valid()
    ensures store.greetings == old(store.greetings)
    ensures uploads == [] ==> r == ServerError && created == None && store.files == old(store.files)
    ensures uploads != [] ==>
              && r == Redirect("/list", [])
              && created.Some? && created.value !in old(store.files)
              && store.files == old(store.files)[created.value := FileRecord(uploads[0], user)]
  {
    if |uploads| == 0 {
      return ServerError, None;
    }
    var blobInfo := uploads[0];
    var k := store.PutFile(FileRecord(blobInfo, user));
    r, created := Redirect("/list", []), Some(k);
  }

  /** `e` is a `File` of the store, as it is stored, owned by `user`. */
  ghost predicate IsOwnedEntry(store: Datastore, user: Option<User>, e: Entry)
    reads store
  {
    e.key in store.files && store.files[e.key] == e.file && e.file.user == user
  }

  /** `query` is what `File.all().filter('user =', user)` yields: every File
      owned by `user`, each once, in an order the Datastore chooses. */
  ghost predicate IsOwnerQuery(store: Datastore, user: Option<User>, query: seq<Entry>)
    reads store
  {
    && DistinctKeys(query)
    && (forall e :: e in query ==> IsOwnedEntry(store, user, e))
    && (forall k :: k in store.files && store.files[k].user == user ==> Entry(k, store.files[k]) in query)
  }

  lemma OwnerQueryMembership(store: Datastore, user: Option<User>, query: seq<Entry>, e: Entry)
    requires IsOwnerQuery(store, user, query)
    ensures e in query <==> IsOwnedEntry(store, user, e)
  {
  }

  /** Every store has, for every user, an owner query: some listing of that
      user's files meets `IsOwnerQuery`. */
  lemma OwnerQueryExists(store: Datastore, user: Option<User>) returns (query: seq<Entry>)
    ensures IsOwnerQuery(store, user, query)
  {
    query := OwnerListing(store.files, user, store.files.Keys);
  }

  /** The files of `keys` owned by `user`, listed once each in some order. */
  lemma {:induction false} OwnerListing(files: map<Key, FileRecord>, user: Option<User>, keys: set<Key>)
    returns (query: seq<Entry>)
    requires keys <= files.Keys
    ensures DistinctKeys(query)
    ensures forall e :: e in query ==> e.key in keys && files[e.key] == e.file && e.file.user == user
    ensures forall k :: k in keys && files[k].user == user ==> Entry(k, files[k]) in query
    decreases keys
  {
    if keys == {} {
      query := [];
    } else {
      var k :| k in keys;
      var rest := OwnerListing(files, user, keys - {k});
      if files[k].user == user {
        query := rest + [Entry(k, files[k])];
        forall i | 0 <= i < |rest|
          ensures rest[i].key != k
        {
          assert rest[i] in rest;
        }
      } else {
        query := rest;
      }
    }
  }

  /** Two owner queries of the same store and user hold the same entries,
      each once: they can differ only in order. */
  lemma OwnerQueriesAgreeUpToOrder(store: Datastore, user: Option<User>, q1: seq<Entry>, q2: seq<Entry>)
    requires IsOwnerQuery(store, user, q1) && IsOwnerQuery(store, user, q2)
    ensures multiset(q1) == multiset(q2)
  {
    forall e
      ensures multiset(q1)[e] == multiset(q2)[e]
    {
      OwnerQueryMembership(store, user, q1, e);
      OwnerQueryMembership(store, user, q2, e);
      DistinctKeysCount(q1, e);
      DistinctKeysCount(q2, e);
    }
  }

  /** In a sequence without repeated keys every entry occurs at most once. */
  lemma {:induction false} DistinctKeysCount(s: seq<Entry>, e: Entry)
    requires DistinctKeys(s)
    ensures multiset(s)[e] == if e in s then 1 else 0
  {
    if s != [] {
      var init, last := s[..|s| - 1], s[|s| - 1];
      assert s == init + [last];
      assert DistinctKeys(init);
      DistinctKeysCount(init, e);
      forall j | 0 <= j < |init|
        ensures init[j] != last
      {
        assert s[j] == init[j] && s[j].key != s[|s| - 1].key;
      }
    }
  }

  /** The loop of the three category handlers: walk the owner query and keep
      the files whose blob's filename has one of the category's suffixes. */
  method CategoryPage(store: Datastore, c: Category, user: Option<User>, query: seq<Entry>)
    returns (page: seq<Entry>)
    requires IsOwnerQuery(store, user, query)
    ensures page == CategoryFilter(query, c)
    ensures forall e :: e in page <==> IsOwnedEntry(store, user, e) && Keeps(c, e)
    ensures SubsequenceOf(page, query) && DistinctKeys(page)
  {
    page := [];
    var i := 0;
    while i < |query|
      invariant 0 <= i <= |query|
      invariant page == CategoryFilter(query[..i], c)
    {
      var file := query[i];
      if InCategory(file.file.blob.filename, c) {
        page := page + [file];
      }
      assert query[..i + 1] == query[..i] + [file];
      i := i + 1;
    }
    assert query[..i] == query;
    OwnerPageMembership(store, c, user, query);
    CategoryFilterIsSubsequence(query, c);
    CategoryFilterKeepsKeysDistinct(query, c);
  }

  lemma OwnerPageMembership(store: Datastore, c: Category, user: Option<User>, query: seq<Entry>)
    requires IsOwnerQuery(store, user, query)
    ensures forall e :: e in CategoryFilter(query, c) <==> IsOwnedEntry(store, user, e) && Keeps(c, e)
  {
    forall e
      ensures e in CategoryFilter(query, c) <==> IsOwnedEntry(store, user, e) && Keeps(c, e)
    {
      CategoryFilterMembership(query, c, e);
      OwnerQueryMembership(store, user, query, e);
    }
  }

  /** ImageHandler.get: the user's files named *.jpg, *.jpeg, *.png or *.gif. */
  method ImagePage(store: Datastore, user: Option<User>, query: seq<Entry>) returns (page: seq<Entry>)
    requires IsOwnerQuery(store, user, query)
    ensures forall e :: e in page <==> IsOwnedEntry(store, user, e) && IsImageName(e.file.blob.filename)
    ensures SubsequenceOf(page, query)
  {
    page := CategoryPage(store, Images, user, query);
  }

  /** AudioHandler.get: the user's files named *.wav, *.aif, *.au or *.mp3. */
  method AudioPage(store: Datastore, user: Option<User>, query: seq<Entry>) returns (page: seq<Entry>)
    requires IsOwnerQuery(store, user, query)
    ensures forall e :: e in page <==> IsOwnedEntry(store, user, e) && IsAudioName(e.file.blob.filename)
    ensures SubsequenceOf(page, query)
  {
    page := CategoryPage(store, Audio, user, query);
  }

  /** VideoHandler.get: the user's files named *.asf, *.mpeg, *.wmv or *.MPG. */
  method VideoPage(store: Datastore, user: Option<User>, query: seq<Entry>) returns (page: seq<Entry>)
    requires IsOwnerQuery(store, user, query)
    ensures forall e :: e in page <==> IsOwnedEntry(store, user, e) && IsVideoName(e.file.blob.filename)
    ensures SubsequenceOf(page, query)
  {
    page := CategoryPage(store, Video, user, query);
  }

  /** The gate shared by view and download: 404 without a user, without a
      key or when the key finds nothing; otherwise the record's blob. */
  function ServeBlob(store: Datastore, user: Option<User>, keyParam: Option<string>, saveAs: bool): (r: Response)
    reads store
    ensures r.SendBlob? <==> user.Some? && KeyGiven(keyParam) && keyParam.value in store.files
    ensures r.SendBlob? ==> r.blob == store.files[keyParam.value].blob && r.saveAs == saveAs
    ensures !r.SendBlob? ==> r == NotFound
  {
    var upload := if KeyGiven(keyParam) then store.Get(keyParam.value) else None;
    if user.None? || upload.None? then NotFound else SendBlob(upload.value.blob, saveAs)
  }

  /** ViewHandler.get: the blob inline, or 404. */
  function View(store: Datastore, user: Option<User>, keyParam: Option<string>): (r: Response)
    reads store
    ensures r.SendBlob? <==> user.Some? && KeyGiven(keyParam) && keyParam.value in store.files
    ensures r.SendBlob? ==> r.blob == store.files[keyParam.value].blob && !r.saveAs
    ensures !r.SendBlob? ==> r == NotFound
  {
    ServeBlob(store, user, keyParam, false)
  }

  /** DownloadHandler.get: the blob as an attachment, or 404. */
  function Download(store: Datastore, user: Option<User>, keyParam: Option<string>): (r: Response)
    reads store
    ensures r.SendBlob? <==> user.Some? && KeyGiven(keyParam) && keyParam.value in store.files
    ensures r.SendBlob? ==> r.blob == store.files[keyParam.value].blob && r.saveAs
    ensures !r.SendBlob? ==> r == NotFound
  {
    ServeBlob(store, user, keyParam, true)
  }

  /** The gate asks only that someone is signed in, not who: a user who does
      not own a stored file is still sent its blob, inline or as a download. */
  lemma NonOwnerIsServed(store: Datastore, other: User, k: Key)
    requires k != "" && k in store.files && store.files[k].user != Some(other)
    ensures View(store, Some(other), Some(k)) == SendBlob(store.files[k].blob, false)
    ensures Download(store, Some(other), Some(k)) == SendBlob(store.files[k].blob, true)
  {
  }

  /** DeleteHandler.get: a record found under a given key is removed before
      the user is checked, so it goes even when no one is signed in; the
      answer is a redirect to the list only when there was a user and a
      record. When the key finds nothing the handler passes `None` to
      `db.delete`; whether the library accepts that (and the handler then
      answers 404) or raises is left open. */
  method DeleteFile(store: Datastore, user: Option<User>, keyParam: Option<string>) returns (r: Response)
    requires store.Valid()
    modifies store
    ensures store.Valid()
    ensures store.files == if KeyGiven(keyParam) then old(store.files) - {keyParam.value} else old(store.files)
    ensures store.greetings == old(store.greetings)
    ensures !KeyGiven(keyParam) ==> r == NotFound
    ensures KeyGiven(keyParam) && keyParam.value in old(store.files) ==>
              r == if user.Some? then Redirect("/list", []) else NotFound
    ensures KeyGiven(keyParam) && keyParam.value !in old(store.files) ==>
              r == NotFound || r == ServerError
  {
    var deleted: Option<FileRecord> := None;
    if KeyGiven(keyParam) {
      deleted := store.Get(keyParam.value);
      if deleted.Some? {
        store.Delete(keyParam.value);
      } else {
        // db.delete(None): the library either ignores it or raises.
        var raises: bool :| true;
        if raises {
          return ServerError;
        }
      }
    }
    if user.None? || deleted.None? {
      return NotFound;
    }
    return Redirect("/list", []);
  }

  /** Deleting a file as a signed-in user redirects and removes it from the
      store (so from every later owner query); a second delete of the same
      key does not redirect and changes nothing. */
  method DeleteTwice(store: Datastore, user: Option<User>, keyParam: Option<string>)
    returns (first: Response, second: Response)
    requires store.Valid() && user.Some? && KeyGiven(keyParam) && keyParam.value in store.files
    modifies store
    ensures first == Redirect("/list", [])
    ensures second != Redirect("/list", []) && (second == NotFound || second == ServerError)
    ensures store.files == old(store.files) - {keyParam.value}
    ensures store.greetings == old(store.greetings)
  {
    first := DeleteFile(store, user, keyParam);
    second := DeleteFile(store, user, keyParam);
  }
}

=== FILE: media.dfy ===
/** Classification of uploaded files into media categories by the suffix of
    their blob's filename, and the filter the category pages apply to the
    owner query. */
module Media {
  import opened Records

  /** Python's `str.endswith`: the last |suffix| characters of `s` are
      `suffix`, compared character by character (so case-sensitively). */
  predicate EndsWith(s: string, suffix: string)
  {
    |suffix| <= |s| && s[|s| - |suffix|..] == suffix
  }

  const ImageSuffixes: set<string> := {".jpg", ".jpeg", ".png", ".gif"}
  const AudioSuffixes: set<string> := {".wav", ".aif", ".au", ".mp3"}
  const VideoSuffixes: set<string> := {".asf", ".mpeg", ".wmv", ".MPG"}

  /** The test of the images page. */
  predicate IsImageName(name: string)
  {
    EndsWith(name, ".jpg") || EndsWith(name, ".jpeg") || EndsWith(name, ".png") || EndsWith(name, ".gif")
  }

  /** The test of the audio page. */
  predicate IsAudioName(name: string)
  {
    EndsWith(name, ".wav") || EndsWith(name, ".aif") || EndsWith(name, ".au") || EndsWith(name, ".mp3")
  }

  /** The test of the video page; its last suffix is upper case. */
  predicate IsVideoName(name: string)
  {
    EndsWith(name, ".asf") || EndsWith(name, ".mpeg") || EndsWith(name, ".wmv") || EndsWith(name, ".MPG")
  }

  datatype Category = Images | Audio | Video

  predicate InCategory(name: string, c: Category)
  {
    match c
    case Images => IsImageName(name)
    case Audio => IsAudioName(name)
    case Video => IsVideoName(name)
  }

  /** Whether the page of category `c` shows entry `e`. */
  predicate Keeps(c: Category, e: Entry)
  {
    InCategory(e.file.blob.filename, c)
  }

  /** The entries of `query` that the page of `c` shows, in query order: the
      list a category handler builds by appending while it walks the query. */
  function CategoryFilter(query: seq<Entry>, c: Category): (page: seq<Entry>)
    ensures |page| <= |query|
    ensures forall e :: e in page ==> Keeps(c, e)
  {
    if query == [] then []
    else
      var last := query[|query| - 1];
      CategoryFilter(query[..|query| - 1], c) + (if Keeps(c, last) then [last] else [])
  }

  /** `a` is `b` with some elements left out, the rest in the same order. */
  ghost predicate SubsequenceOf<T>(a: seq<T>, b: seq<T>)
    decreases |b|
  {
    if a == [] then true
    else if b == [] then false
    else
      (a[|a| - 1] == b[|b| - 1] && SubsequenceOf(a[..|a| - 1], b[..|b| - 1]))
      || SubsequenceOf(a, b[..|b| - 1])
  }

  /** No key occurs twice. */
  ghost predicate DistinctKeys(s: seq<Entry>)
  {
    forall i, j :: 0 <= i < j < |s| ==> s[i].key != s[j].key
  }

  /** An entry is on the page exactly when it is in the query and its
      filename has one of the category's suffixes. */
  lemma {:induction false} CategoryFilterMembership(query: seq<Entry>, c: Category, e: Entry)
    ensures e in CategoryFilter(query, c) <==> e in query && Keeps(c, e)
  {
    if query != [] {
      var init, last := query[..|query| - 1], query[|query| - 1];
      CategoryFilterMembership(init, c, e);
      assert query == init + [last];
    }
  }

  /** The page is the query with entries left out, in the same order. */
  lemma {:induction false} CategoryFilterIsSubsequence(query: seq<Entry>, c: Category)
    ensures SubsequenceOf(CategoryFilter(query, c), query)
  {
    if query != [] {
      var init, last := query[..|query| - 1], query[|query| - 1];
      CategoryFilterIsSubsequence(init, c);
      var page := CategoryFilter(query, c);
      if Keeps(c, last) {
        assert page[..|page| - 1] == CategoryFilter(init, c);
      } else {
        assert page == CategoryFilter(init, c);
      }
    }
  }

  /** Filtering never adds an entry and never repeats one more often than
      the query holds it. */
  lemma {:induction false} CategoryFilterCounts(query: seq<Entry>, c: Category)
    ensures multiset(CategoryFilter(query, c)) <= multiset(query)
  {
    if query != [] {
      var init, last := query[..|query| - 1], query[|query| - 1];
      CategoryFilterCounts(init, c);
      assert query == init + [last];
    }
  }

  /** A query without repeated keys gives a page without repeated keys. */
  lemma {:induction false} CategoryFilterKeepsKeysDistinct(query: seq<Entry>, c: Category)
    requires DistinctKeys(query)
    ensures DistinctKeys(CategoryFilter(query, c))
  {
    if query != [] {
      var init, last := query[..|query| - 1], query[|query| - 1];
      assert DistinctKeys(init);
      CategoryFilterKeepsKeysDistinct(init, c);
      var before := CategoryFilter(init, c);
      forall i | 0 <= i < |before|
        ensures before[i].key != last.key
      {
        CategoryFilterMembership(init, c, before[i]);
        var j :| 0 <= j < |init| && init[j] == before[i];
        assert query[j] == init[j];
      }
    }
  }

  /** A name passes the images test exactly when it ends in a member of `ImageSuffixes`. */
  lemma ImageNameBySuffixSet(name: string)
    ensures IsImageName(name) <==> exists t :: t in ImageSuffixes && EndsWith(name, t)
  {
  }

  /** A name passes the audio test exactly when it ends in a member of `AudioSuffixes`. */
  lemma AudioNameBySuffixSet(name: string)
    ensures IsAudioName(name) <==> exists t :: t in AudioSuffixes && EndsWith(name, t)
  {
  }

  /** A name passes the video test exactly when it ends in a member of `VideoSuffixes`. */
  lemma VideoNameBySuffixSet(name: string)
    ensures IsVideoName(name) <==> exists t :: t in VideoSuffixes && EndsWith(name, t)
  {
  }

  /** The suffix test is case-sensitive: an upper-case ".JPG" is not an image. */
  lemma UpperCaseJpgIsNotImage(stem: string)
    ensures !IsImageName(stem + ".JPG")
  {
    var name := stem + ".JPG";
    assert name[|name| - 1] == 'G';
  }

  /** A lower-case ".mpg" is not a video, since only ".MPG" is listed. */
  lemma LowerCaseMpgIsNotVideo(stem: string)
    ensures !IsVideoName(stem + ".mpg")
  {
    var name := stem + ".mpg";
    assert name[|name| - 1] == 'g' && name[|name| - 2] == 'p';
    assert name[|name| - 4..] == ".mpg";
  }

  /** An upper-case ".MPG" is a video, and on no other page. */
  lemma UpperCaseMpgIsVideoOnly(stem: string)
    ensures IsVideoName(stem + ".MPG")
    ensures !IsImageName(stem + ".MPG") && !IsAudioName(stem + ".MPG")
  {
    var name := stem + ".MPG";
    assert name[|name| - 4..] == ".MPG";
    assert name[|name| - 1] == 'G';
  }

  /** An ".mp3" file is audio, and on no other page. */
  lemma Mp3IsAudioOnly(stem: string)
    ensures IsAudioName(stem + ".mp3")
    ensures !IsImageName(stem + ".mp3") && !IsVideoName(stem + ".mp3")
  {
    var name := stem + ".mp3";
    assert name[|name| - 4..] == ".mp3";
    assert name[|name| - 1] == '3';
  }

  /** No filename has suffixes of two categories, so a file is on at most
      one of the three pages. */
  lemma CategoriesDisjoint(name: string)
    ensures !(IsImageName(name) && IsAudioName(name))
    ensures !(IsImageName(name) && IsVideoName(name))
    ensures !(IsAudioName(name) && IsVideoName(name))
  {
    EndsWithLastChars(name, ".jpg");
    EndsWithLastChars(name, ".jpeg");
    EndsWithLastChars(name, ".png");
    EndsWithLastChars(name, ".gif");
    EndsWithLastChars(name, ".wav");
    EndsWithLastChars(name, ".aif");
    EndsWithLastChars(name, ".au");
    EndsWithLastChars(name, ".mp3");
    EndsWithLastChars(name, ".asf");
    EndsWithLastChars(name, ".mpeg");
    EndsWithLastChars(name, ".wmv");
    EndsWithLastChars(name, ".MPG");
  }

  /** Ending with `t` fixes the last two characters of `s`. */
  lemma EndsWithLastChars(s: string, t: string)
    requires |t| >= 2
    ensures EndsWith(s, t) ==> s[|s| - 1] == t[|t| - 1] && s[|s| - 2] == t[|t| - 2]
  {
  }
}

=== FILE: records.dfy ===
/** Values the request handlers work with: identities, blob references, the
    two record kinds the application stores, and the responses a handler ends
    with. */
module Records {

  datatype Option<+T> = None | Some(value: T)

  /** A signed-in identity, as the users service hands it out; two users are
      the same exactly when their values are equal. */
  datatype User = User(email: string)

  /** An uploaded large object: its blobstore key and the filename it was
      uploaded under. */
  datatype BlobInfo = BlobInfo(blobKey: string, filename: string)

  /** The text form of a Datastore key, as the `key` request parameter carries it. */
  type Key = string

  /** A `File` record: the uploaded blob and, when one was signed in, its owner. */
  datatype FileRecord = FileRecord(blob: BlobInfo, user: Option<User>)

  /** A `File` record together with its key, as an owner query returns it. */
  datatype Entry = Entry(key: Key, file: FileRecord)

  /** A Datastore key made of a kind and a name, such as a guestbook group's key. */
  datatype NamedKey = NamedKey(kind: string, name: string)

  /** A `Greeting` record: its guestbook group (the parent key), its author
      when one was signed in, its text and its creation time. */
  datatype Greeting = Greeting(parent: NamedKey, author: Option<User>, content: string, date: int)

  /** How a handler answers a request. */
  datatype Response =
    | NotFound                                              // self.error(404)
    | SendBlob(blob: BlobInfo, saveAs: bool)                // send_blob, as an attachment when saveAs
    | Redirect(path: string, query: seq<(string, string)>)  // self.redirect(path?query)
    | ServerError                                           // an exception the handler does not catch

  const DefaultGuestbookName: string := "default_name"

  /** The key of the guestbook group named `name`: kind "Guestbook", that name. */
  function GuestbookKey(name: string): (k: NamedKey)
  {
    NamedKey("Guestbook", name)
  }

  /** The length in bytes of the UTF-8 encoding of `s`. */
  function Utf8Length(s: string): (n: nat)
    ensures |s| <= n <= 4 * |s|
  {
    if s == [] then 0
    else
      var c := s[0] as int;
      (if c < 0x80 then 1 else if c < 0x800 then 2 else if c < 0x1_0000 then 3 else 4) + Utf8Length(s[1..])
  }

  /** A name the Datastore's key constructor accepts: not empty, and at most
      500 bytes once encoded. */
  predicate KeyNameAccepted(name: string)
  {
    name != "" && Utf8Length(name) <= 500
  }

  /** The default guestbook name is one the key constructor accepts, so a
      request without a name always gets its greeting stored. */
  lemma DefaultNameAccepted()
    ensures KeyNameAccepted(DefaultGuestbookName)
  {
  }

  /** Guestbooks with different names are different entity groups, so their
      greetings never share a parent. */
  lemma GuestbookKeysDistinct(a: string, b: string)
    ensures GuestbookKey(a) == GuestbookKey(b) <==> a == b
  {
  }
}

=== FILE: store.dfy ===
/** An in-memory stand-in for the Datastore as the handlers use it: `File`
    records addressed by key, `Greeting` records in the order they were put,
    and the allocation of a fresh key for every `File` put. */
module Store {
  import opened Records

  function DigitChar(d: nat): char
    requires d < 10
  {
    "0123456789"[d]
  }

  /** The decimal numeral of `n`. */
  function Decimal(n: nat): (s: string)
    ensures |s| >= 1
    ensures |s| == 1 <==> n < 10
  {
    (if n < 10 then "" else Decimal(n / 10)) + [DigitChar(n % 10)]
  }

  /** Different numbers have different numerals. */
  lemma {:induction false} DecimalDistinct(a: nat, b: nat)
    requires a != b
    ensures Decimal(a) != Decimal(b)
    decreases a + b
  {
    var sa, sb := Decimal(a), Decimal(b);
    if a % 10 != b % 10 {
      assert sa[|sa| - 1] == DigitChar(a % 10) != DigitChar(b % 10) == sb[|sb| - 1];
    } else if a < 10 || b < 10 {
      assert |sa| != |sb|;
    } else {
      DecimalDistinct(a / 10, b / 10);
      assert sa[..|sa| - 1] == Decimal(a / 10);
      assert sb[..|sb| - 1] == Decimal(b / 10);
    }
  }

  /** The key text of the `id`-th `File` the store allocates a key for. */
  function KeyText(id: nat): Key
  {
    Decimal(id)
  }

  class Datastore {
    /** `File` records by key. */
    var files: map<Key, FileRecord>
    /** `Greeting` records, in the order they were put. */
    var greetings: seq<Greeting>
    /** The id the next allocated `File` key gets. */
    var nextId: nat

    /** Every stored key was allocated before, so the next one is unused. */
    ghost predicate Valid()
      reads this
    {
      forall k :: k in files ==> exists id: nat :: id < nextId && k == KeyText(id)
    }

    constructor ()
      ensures Valid()
      ensures files == map[] && greetings == []
    {
      files := map[];
      greetings := [];
      nextId := 0;
    }

    /** `db.get`: the record stored under `k`, if there is one. */
    function Get(k: Key): (r: Option<FileRecord>)
      reads this
    {
      if k in files then Some(files[k]) else None
    }

    /** `put()` of a new `File`: it gets a key no record has, and nothing
        else in the store changes. */
    method PutFile(rec: FileRecord) returns (k: Key)
      requires Valid()
      modifies this
      ensures Valid()
      ensures k !in old(files) && files == old(files)[k := rec]
      ensures greetings == old(greetings)
    {
      forall id: nat | id < nextId
        ensures KeyText(id) != KeyText(nextId)
      {
        DecimalDistinct(id, nextId);
      }
      k := KeyText(nextId);
      files := files[k := rec];
      nextId := nextId + 1;
    }

    /** `put()` of a new `Greeting`: it is added after all earlier ones. */
    method PutGreeting(g: Greeting)
      requires Valid()
      modifies this
      ensures Valid()
      ensures greetings == old(greetings) + [g]
      ensures files == old(files) && nextId == old(nextId)
    {
      greetings := greetings + [g];
    }

    /** `db.delete` by key: the record under `k` is gone, if there was one,
        and nothing else changes. */
    method Delete(k: Key)
      requires Valid()
      modifies this
      ensures Valid()
      ensures files == old(files) - {k}
      ensures greetings == old(greetings) && nextId == old(nextId)
    {
      files := files - {k};
    }
  }
}
